=== FILE: README.md ===
# Option-selection model

This project is a Dafny model of the option-selection model of a WPF data-entry form (`WpfApp.Model`). Its options are choices the form offers, and they come in two kinds. **System options** are generated from the values of a C# enum. **Dynamic options** are user-created records that the form loads from its database.

- An **option list** (`BaseOptionList<TOption>`) holds an ordered list of options and at most one selected option.
- The **registry** (`SystemDefinedOptions`) turns each enum into a fixed catalog of system options. Value `v` gets `Id = -v - 1`.
- A **system option list** (`SystemOptionList<TEnum>`) is a list over one catalog that can also be selected by enum value.
- A **dynamic option list** (`DynamicOptionList`) starts empty and is refilled from storage.
- A **mixed option list** (`MixedOptionList<TEnum>`) joins a system list and a dynamic list into one view with one selection.

The model is functional. Lists are immutable datatypes, and every mutator is a function that returns the new list. A setter that throws `ArgumentException` returns `Thrown(error, state)`; a normal return is `Ok(state)`. The state it carries is the list as the exception leaves it, which can be partly changed.

Options have reference identity. The C# classes do not override `Equals`, so every option carries a `ref`. For a catalog option the `ref` is its catalog position; for any other option it is an address. Equality of option values is therefore object identity, and two options built separately are different even when their `Id` and `Name` agree. The model takes for granted that one `ref` always denotes the same field values.

Option kinds form a sum type: `System` (which carries its enum type and `SystemId`), `Dynamic`, and `Other`. `Other` stands for any other `BaseOption` subclass. The subset types `SystemOption` and `DynamicOption` stand for the C# classes. The C# type test `case SystemOption<TEnum>` is `System? && enumType == TEnum`.

Each enum is modelled as a type name plus member names. Member `i` has underlying value `i`, so `Enum.GetValues` lists `0 .. n-1` in ascending order. Enum arguments are plain `int`s, so a cast to an undeclared value is also modelled.

`StringComparison.OrdinalIgnoreCase` is modelled as ASCII upper-case folding (module `Names`).

Modules follow the source files:

| file | module | C# source |
|---|---|---|
| results.dfy | `Results` | nullable values; `ArgumentException`s as `Completion` |
| names.dfy | `Names` | `OrdinalIgnoreCase` |
| enums.dfy | `Enums` | the enum types (their declarations are not part of this model) |
| base_option.dfy | `BaseOptions` | Model/BaseOption.cs, Model/SystemOption.cs, `DynamicOption` |
| base_option_list.dfy | `BaseOptionLists` | Model/BaseOptionList.cs |
| system_defined_options.dfy | `SystemDefinedOptions` | Model/SystemDefinedOptions.cs |
| system_option_list.dfy | `SystemOptionLists` | Model/SystemOptionList.cs |
| dynamic_option_list.dfy | `DynamicOptionLists` | Model/DynamicOptionList.cs |
| mixed_option_list.dfy | `MixedOptionLists` | Model/MixedOptionList.cs |
| scenarios.dfy | `Scenarios` | worked examples on a two-value enum |

## Behaviour of the code worth knowing

- **Option equality is reference identity.** No option class overrides `Equals`, so the setter's `Contains` check and `IsSelected(option)` compare objects, not ids.
- **The merged getter prefers the dynamic side.** It is `base.SelectedOption ?? system.SelectedOption`. Through the mixed list's own members both sides are never selected at once (`RunKeepsWf`), so there the preference makes no difference.
- **`SetOptions` always keeps the old selection**, even when that option is no longer in the new list (`SetOptionsCanDangle`).
- **Enum selection can fail.** It looks the value up with `FirstOrDefault`, so an undeclared value such as `(Gender)42` finds nothing. The call then returns false and clears the selection (`UndeclaredValueClears`).
- **The inherited `IsSelected` overloads on the mixed list read only the dynamic side**, because `BaseOptionList` binds to its own `SelectedOption` property. A system option that the merged getter returns is "not selected" by these queries (`InheritedIsSelectedIgnoresSystemSide`).
- **The mixed list hides `Options` and `SelectedOption` with `new` instead of overriding them.** Through a `BaseOptionList<BaseOption>` reference, the base setter selects a dynamic option without clearing the system side (`BaseSetterBreaksExclusive`). See "## Findings".

## Model

| member | source | states |
|---|---|---|
| Names.EqualsIgnoreCaseCharwise | Model/BaseOptionList.cs:54-55 | names match ignoring case iff they have the same length and agree character by character after upper-case folding |
| Names.EqualsIgnoreCase | Model/BaseOptionList.cs:55 | the `OrdinalIgnoreCase` comparison (a predicate without a contract): names are equal after upper-case folding; `EqualsIgnoreCaseCharwise` states it per character |
| Names.IgnoresCaseExample | Model/BaseOptionList.cs:55 | "abc" matches "ABC" but not "abd" |
| BaseOptions.ConstructionDefaults | Model/BaseOption.cs:5-8 | at construction, an omitted `Id` is 0 and an omitted `Name` is "", which `ToString` shows; a `SystemOption`'s `SystemId` is the supplied value, and any `Id` may go with it |
| BaseOptions.ToString | Model/BaseOption.cs:8 | `ToString()` shows the option's `Name`. It is a plain definition; what it displays is stated by `ConstructionDefaults` (an omitted name shows ""), `SystemDefinedOptions.ConvertEnumToSystemOption` and `SystemOptionLists.SelectOptionRoundTrip` (a catalog option shows its enum member's name) |
| BaseOptions.SeparatelyBuiltOptionsDiffer | Model/BaseOption.cs:3-9 | two options built separately are different options even when `Id`, `Name` (and `SystemId`) agree |
| BaseOptionLists.New | Model/BaseOptionList.cs:3-9 | a new list holds exactly the given sequence, in order, and selects nothing |
| BaseOptionLists.SetSelected | Model/BaseOptionList.cs:11-27 | succeeds iff the value is null or a member (by identity); on success the selection is the value and the options are unchanged; otherwise it throws `InvalidSelection` with the list unchanged |
| BaseOptionLists.Cleared | Model/BaseOptionList.cs:16-18 | the setter's null case never throws; it leaves the options as they were and nothing selected |
| BaseOptionLists.SetOptions | Model/BaseOptionList.cs:29-35 | the options become exactly the new sequence and the previous selection is kept as it was |
| BaseOptionLists.SetOptionsMembership | Model/BaseOptionList.cs:29-35 | after `SetOptions` the selection is a member iff it was null or is in the new sequence |
| BaseOptionLists.SetOptionsKeepsQueries | Model/BaseOptionList.cs:29-35 | `SetOptions` changes neither `IsSelected` query: an option selected before stays selected even when the new options do not list it, leaving the selection dangling |
| BaseOptionLists.SetOptionsCanDangle | Model/BaseOptionList.cs:29-35 | a concrete list whose selection stops being a member after `SetOptions` |
| BaseOptionLists.FindFirst | Model/BaseOptionList.cs:49 | returns no index iff nothing matches, otherwise the index of the first match in list order |
| BaseOptionLists.FirstOrDefault | Model/BaseOptionList.cs:49 | returns null iff nothing matches; otherwise it returns the option at the first matching position, in list order |
| BaseOptionLists.FirstOrDefaultIsFirst | Model/BaseOptionList.cs:49 | the first match is unique, and `FirstOrDefault` returns the option at that position |
| BaseOptionLists.SelectById | Model/BaseOptionList.cs:41-52 | null clears and returns true; otherwise it returns true iff some option has the id and selects the first such option, else it clears; the options are unchanged and the selection stays a member |
| BaseOptionLists.AnyNamed | Model/BaseOptionList.cs:54-55 | true iff some option's name matches ignoring case |
| BaseOptionLists.ContainsOptionWithName | Model/BaseOptionList.cs:54-55 | true iff some member's `Name` equals the name under ordinal case-insensitive comparison |
| BaseOptionLists.IsSelected | Model/BaseOptionList.cs:57 | false when nothing is selected; true of the selected object whether or not it is still listed; when true, the selected option has the option's id and (for a list whose selection is a member) the option is listed; with `IsSelectedQueries` (at most one option is selected) this is exactly "is the selected object", and `SetOptionsKeepsQueries` shows a dangling selection stays selected |
| BaseOptionLists.IsSelectedId | Model/BaseOptionList.cs:59 | false when nothing is selected; when true (and the selection is a member), some listed option has that id; exact meaning in `IsSelectedQueries` |
| BaseOptionLists.IsSelectedQueries | Model/BaseOptionList.cs:57-59 | with nothing selected both `IsSelected` overloads are false; the selected object is selected, listed or not; a selected option has its id selected; at most one option is selected; a selected id belongs to the selected option |
| BaseOptionLists.SetSelectedRoundTrip | Model/BaseOptionList.cs:14-59 | setting a member succeeds, after which `IsSelected` holds of it and of its id and of no other option |
| BaseOptionLists.TwinIsNotSelected | Model/BaseOptionList.cs:57-59 | a separately built twin of the selected option is not selected (although its id is), and the setter rejects it |
| SystemDefinedOptions.ConvertEnumToSystemOption | Model/SystemDefinedOptions.cs:18-25 | the option for a declared value has a negative id from which the value is recovered as `-id - 1`, `SystemId` equal to the value, and the value's name as its display text |
| SystemDefinedOptions.Catalog | Model/SystemDefinedOptions.cs:14-25 | one option per enum value in `GetValues` order, each with `SystemId` = value, `Id = -value - 1`, `Name` = the value's name, and the registry's own identity |
| SystemDefinedOptions.CatalogIdsDistinct | Model/SystemDefinedOptions.cs:22 | different catalog positions hold different options with different ids |
| SystemDefinedOptions.CatalogIdBijection | Model/SystemDefinedOptions.cs:20-25 | an id occurs in the catalog iff `-id - 1` is a declared value, and the option with that id has that `SystemId` |
| SystemDefinedOptions.CatalogIdsNegative | Model/SystemDefinedOptions.cs:22 | every catalog id is at most -1, so a lookup by a non-negative id finds nothing |
| SystemDefinedOptions.CatalogTotal | Model/SystemDefinedOptions.cs:14-16 | every declared value is the `SystemId` of exactly one option, at its own position; an undeclared value is the `SystemId` of none |
| SystemOptionLists.For | Model/SystemOptionList.cs:7-15 | a system list holds its enum's registry catalog and selects nothing |
| SystemOptionLists.SelectOption | Model/SystemOptionList.cs:21-32 | null clears and returns true; otherwise it returns true iff some option has that `SystemId` and selects the first such option, else it clears; the checked setter it passes the lookup result to accepts it (never throws); the contents never change |
| SystemOptionLists.IsSelected | Model/SystemOptionList.cs:34 | true iff a selection exists and its `SystemId` is the value |
| SystemOptionLists.OperationsKeepCatalog | Model/SystemOptionList.cs:5-15 | every operation on a system list keeps its contents equal to the catalog and its selection a member |
| SystemOptionLists.SelectOptionRoundTrip | Model/SystemOptionList.cs:21-34 | selecting a declared value succeeds; the selection is its catalog option with `Id = -v - 1` and the enum name; `IsSelected` holds of that value and of no other |
| SystemOptionLists.UndeclaredValueClears | Model/SystemOptionList.cs:29-31 | an undeclared enum value is not found: the call returns false and clears the selection |
| SystemOptionLists.CatalogObjectsShared | Model/SystemDefinedOptions.cs:8-12 | lists for the same enum share their option objects, so one list's selection is accepted by the other's setter, and the enum and identity queries agree on it |
| DynamicOptionLists.New | Model/DynamicOptionList.cs:3 | a new dynamic list is empty and selects nothing |
| DynamicOptionLists.SetOptions | Model/DynamicOptionList.cs:5-8 | the contents become exactly the new sequence, in order; the selection is unchanged |
| DynamicOptionLists.OperationsKeepValid | Model/DynamicOptionList.cs:3-8 | the inherited setter and id selection keep every option and the selection dynamic |
| DynamicOptionLists.DuplicateIdsPickFirst | Model/DynamicOptionList.cs:5-8 | two different options with one id are both accepted, and selecting that id picks the earlier one |
| MixedOptionLists.For | Model/MixedOptionList.cs:42-45 | a new mixed list holds the catalog on the system side, an empty dynamic side and no selection, and it satisfies the state invariant |
| MixedOptionLists.Options | Model/MixedOptionList.cs:12-13 | the merged view is as long as both sides together and lists an option iff one of the sides does; order is stated by `OptionsConcatenate` |
| MixedOptionLists.OptionsConcatenate | Model/MixedOptionList.cs:12-13 | the merged view lists the catalog first and then the dynamic options, both in order; an option is listed iff one side lists it |
| MixedOptionLists.Selected | Model/MixedOptionList.cs:17 | the getter is null iff both sides are; otherwise it is one side's selection, and the system's when only the system side is selected |
| MixedOptionLists.SelectedIsTheSelectedSide | Model/MixedOptionList.cs:17 | the getter returns the dynamic selection when there is one, otherwise the system selection; it is null iff both sides are |
| MixedOptionLists.SetSelected | Model/MixedOptionList.cs:18-39 | null clears both sides. A system option of this enum is set on the system side and clears the dynamic side, or throws with no change. A dynamic option clears the system side, then is set on the dynamic side or throws. Any other option throws `UnsupportedOptionType` with no change. On success the getter returns the value, and the invariants are kept; no path changes either side's options |
| MixedOptionLists.BaseSetSelected | Model/BaseOptionList.cs:14-26 | the base setter on a mixed list accepts exactly null and the listed dynamic options; on success it selects the value on the dynamic side; it never changes either side's options or the system side; otherwise it throws `InvalidSelection` with no change |
| MixedOptionLists.BaseSetterBreaksExclusive | Model/MixedOptionList.cs:15-40 | from a state the mixed list's own members reach (`Wf`), setting a dynamic option through the base type leaves both sides selected: the getter shows the dynamic option while `IsSelected(TEnum)` still holds |
| MixedOptionLists.ContainsId | Model/MixedOptionList.cs:50 | true iff some option of the list has the id |
| MixedOptionLists.AnyIdCollides | Model/MixedOptionList.cs:50 | true iff some incoming id equals some system id |
| MixedOptionLists.SetOptions | Model/MixedOptionList.cs:47-57 | throws `DuplicateId`, with no change, iff an incoming id equals a catalog id; otherwise it replaces only the dynamic options and keeps both selections |
| MixedOptionLists.SelectById | Model/MixedOptionList.cs:63-67 | returns true iff the id is null or occurs on either side; a dynamic match wins and a system match is used only if there is none; afterwards at most one side is selected, and nothing is selected on failure |
| MixedOptionLists.SelectOption | Model/MixedOptionList.cs:73-83 | null clears both sides and returns true; otherwise it clears the dynamic side and returns the system side's enum lookup; the getter then returns the first option with that `SystemId` |
| MixedOptionLists.ClearSelection | Model/MixedOptionList.cs:85-89 | both sides end up unselected and the getter returns null; each side keeps its own options |
| MixedOptionLists.ContainsSystemOptionWithName | Model/MixedOptionList.cs:91-92 | true iff a catalog option's name matches ignoring case |
| MixedOptionLists.ContainsDynamicOptionWithName | Model/MixedOptionList.cs:94-95 | true iff a dynamic option's name matches ignoring case |
| MixedOptionLists.ContainsOptionWithName | Model/MixedOptionList.cs:97-98 | true iff some option of the merged view has a name that matches ignoring case |
| MixedOptionLists.IsSelectedEnum | Model/MixedOptionList.cs:100 | consults only the system side: true iff it has a selection with that `SystemId` |
| MixedOptionLists.IsSelected | Model/BaseOptionList.cs:57 | the inherited query on the mixed list is true iff the dynamic side's selection is that option |
| MixedOptionLists.IsSelectedId | Model/BaseOptionList.cs:59 | the inherited query on the mixed list is true iff the dynamic side has a selection with that id |
| MixedOptionLists.IdInOptions | Model/MixedOptionList.cs:12-13 | an id occurs in the merged view iff it occurs on the system side or on the dynamic side |
| MixedOptionLists.MergedSetterAcceptsExactlyMembers | Model/MixedOptionList.cs:12-39 | on every reachable state (`Consistent`, which the base setter keeps too, so both sides may be selected) the merged setter succeeds iff the option is in the merged view, and the getter then returns it |
| MixedOptionLists.MergedSelectByIdIsFirstMatch | Model/MixedOptionList.cs:47-67 | on every reachable state (`Consistent`, base setter included), where dynamic ids avoid catalog ids, trying the dynamic side first selects the first option with the id in the merged view |
| MixedOptionLists.InheritedIsSelectedIgnoresSystemSide | Model/MixedOptionList.cs:15-17 | after selecting an enum value, the getter returns its catalog option, but the inherited `IsSelected` is false for that option and for its id |
| MixedOptionLists.SelectOptionRoundTrip | Model/MixedOptionList.cs:73-100 | selecting a declared enum value succeeds, clears the dynamic side, selects the option with `Id = -v - 1`, and `IsSelected(TEnum)` holds |
| MixedOptionLists.RunKeepsWf | Model/MixedOptionList.cs:20-89 | after any sequence of calls to the mixed list's own mutators, including failed ones, the list keeps its catalog, never has both sides selected, and never holds a dynamic id equal to a catalog id |
| MixedOptionLists.RunAnyKeepsConsistent | Model/MixedOptionList.cs:15-89 | after any sequence of calls to the mixed list's members or to the base setter reached through a `BaseOptionList<BaseOption>` reference (Model/BaseOptionList.cs:14-26), failures included, the list keeps its catalog, its base side holds only dynamic options, and no dynamic id equals a catalog id; only exclusivity can be lost |
| Scenarios.LoadSelectByIdThenByEnum | Model/MixedOptionList.cs:47-83 | enum {A, B} has ids -1 and -2; loading 1 "x" and 2 "y" succeeds; id 2 selects "y"; then enum A succeeds, clears the dynamic side and shows "A" |
| Scenarios.CollidingLoadRefused | Model/MixedOptionList.cs:47-54 | loading a dynamic option with id -1 against that enum throws `DuplicateId` with no change |
| Scenarios.UnknownIdClears | Model/MixedOptionList.cs:63-67 | selecting id 999 when only ids 1 and 2 exist returns false and leaves nothing selected |

## Findings

| source | as written | input that shows it | evidently intended | confidence | as-written member | corrected member |
|---|---|---|---|---|---|---|
| Model/MixedOptionList.cs:15-40 | `SelectedOption` is hidden with `new`, so the base setter (Model/BaseOptionList.cs:14-26) stays reachable through a `BaseOptionList<BaseOption>` reference and does not clear the system side | enum {A}; `SetOptions([x])`; `SelectOption(A)`; then `((BaseOptionList<BaseOption>)list).SelectedOption = x` leaves both sides selected | every route to the setter goes through the routing setter, so at most one side is ever selected | medium, not executed | MixedOptionLists.BaseSetterBreaksExclusive | MixedOptionLists.RunKeepsWf |

## Left out

- ViewModels/UserFormViewModel.cs, App.xaml.cs, Data/ApplicationDbContext.cs, Views/*.xaml.cs and Domain/Entities/*.cs are not part of this model. They are UI glue, dependency-injection wiring, database access and plain records, and they hold no option-model logic. The view model's restore-precedence and save-mapping fragments are left out for the same reason.
- Case folding covers ASCII letters only. .NET's `OrdinalIgnoreCase` also upper-cases non-ASCII characters, and that Unicode table is not modelled.
- Enums are modelled with underlying values `0 .. n-1`. Enums with explicit, negative, duplicate or `[Flags]` values, and the `ToString` of undeclared values, are not modelled.
- Catalog ids are computed in unbounded integers. For values `0 .. n-1`, `-(int)value - 1` cannot overflow a 32-bit `int`, so no wrap-around is modelled.
- The registry's `static readonly` fields and their thread-safe one-time initialisation are not modelled. The catalog is a function of the enum type, so every list for an enum sees the same objects. The two concrete catalogs (`Genders`, `ProgrammingLanguages`) are instances of it, and their enum declarations are not part of this model.
- DynamicOptionLists.SetOptions: an argument that reads the list's own storage lazily is not modelled, for example `list.SetOptions(list.Options)` or a LINQ query over `list.Options`. The source clears the list before it reads the argument (Model/BaseOptionList.cs:32-33), so such a call leaves the list empty; the model takes the argument as a finished sequence. BaseOptionLists.SetOptions has the same limit. The mixed list's `SetOptions` is not affected, because it copies its argument with `ToList()` first.
- The public `set` accessor of `SystemOption.SystemId` is not modelled, and options are treated as immutable after construction. The registry's options are shared by every list, so assigning a catalog option's `SystemId` would change every list's enum lookup, and `Catalog`, `CatalogTotal` and `CatalogIdBijection` would no longer hold.
- The base `Options` property and the base `SelectedOption` getter, read through a `BaseOptionList<BaseOption>` reference to a mixed list, show only the dynamic side. The model reads them as `m.dynamic` and has no separate member for them; the base setter is modelled as `BaseSetSelected`.
- `Options` returns the sequence itself. C#'s read-only views (`AsReadOnly`) and the mixed list's fresh copy are not distinguished.
- Failures the C# runtime raises on its own are not modelled: null arguments, such as a null `option` passed to `IsSelected` or a null sequence passed to `SetOptions`.
- The setters of the system and dynamic lists accept any `BaseOption` in the model. The C# compiler allows only the element type. For well-typed arguments the two behave the same, and a non-member of another type is rejected as in the source.

=== FILE: base_option.dfy ===
/** `BaseOption` and its subclasses `SystemOption<TEnum>` and `DynamicOption`.

    The C# classes do not override `Equals`, so two options are the same
    option only when they are the same object. Each option therefore
    carries a `ref` naming the object it stands for: registry options are
    named by their catalog position, every other option by an address.
    Equality of two `BaseOption` values is then reference equality: it
    holds only when `ref` (and hence every field) agrees.
 */
module BaseOptions {
  import opened Enums

  datatype Ref =
    | Registry(enumType: EnumType, index: nat)  // built once by the system-defined registry
    | Heap(address: nat)                        // built with `new` anywhere else

  /** The runtime type of an option: `Id` and `Name` are common to all of
      them; a `SystemOption<TEnum>` also records its enum type and `SystemId`.
      `Other` is any further subclass of `BaseOption`. */
  datatype BaseOption =
    | System(ref: Ref, id: int, name: string, enumType: EnumType, systemId: int)
    | Dynamic(ref: Ref, id: int, name: string)
    | Other(ref: Ref, id: int, name: string)

  type SystemOption = o: BaseOption | o.System?
    witness System(Heap(0), 0, "", EnumType("", []), 0)

  type DynamicOption = o: BaseOption | o.Dynamic?
    witness Dynamic(Heap(0), 0, "")

  /** `new DynamicOption { Id = id, Name = name }`; an omitted `Id` is 0 and
      an omitted `Name` is the empty string. */
  function NewDynamicOption(address: nat, id: int := 0, name: string := ""): DynamicOption
  {
    Dynamic(Heap(address), id, name)
  }

  /** `new SystemOption<TEnum> { SystemId = systemId, Id = id, Name = name }`.
      `SystemId` is `required`, so it has no default; `Id` and `Name` do. */
  function NewSystemOption(address: nat, enumType: EnumType, systemId: int,
                           id: int := 0, name: string := ""): SystemOption
  {
    System(Heap(address), id, name, enumType, systemId)
  }

  /** `ToString()` shows the option's name. */
  function ToString(o: BaseOption): string
  {
    o.name
  }

  /** What construction leaves: omitted initialisers give `Id == 0` and
      `Name == ""` (which `ToString` shows); `SystemId` is the supplied
      value, and `SystemOption` ties no `Id` to it. */
  lemma ConstructionDefaults(address: nat, e: EnumType, v: int, id: int)
    ensures NewDynamicOption(address).id == 0
    ensures ToString(NewDynamicOption(address)) == ""
    ensures NewSystemOption(address, e, v).id == 0
    ensures ToString(NewSystemOption(address, e, v)) == ""
    ensures NewSystemOption(address, e, v, id).id == id
    ensures NewSystemOption(address, e, v, id).systemId == v
  {
  }

  /** Without an `Equals` override, options built separately are different
      options even when every property agrees. */
  lemma SeparatelyBuiltOptionsDiffer(a1: nat, a2: nat, e: EnumType, v: int, id: int, name: string)
    requires a1 != a2
    ensures NewDynamicOption(a1, id, name) != NewDynamicOption(a2, id, name)
    ensures NewSystemOption(a1, e, v, id, name) != NewSystemOption(a2, e, v, id, name)
  {
  }
}

=== FILE: base_option_list.dfy ===
/** `BaseOptionList<TOption>`: an ordered list of options with at most one
    selected option.

    The list is a value; every mutator returns the new list. The source's
    element type parameter is dropped: the subclasses' element types are
    stated as invariants where they use the list.
 */
module BaseOptionLists {
  import opened Results
  import opened Names
  import opened BaseOptions

  datatype OptionList = OptionList(options: seq<BaseOption>, selected: Option<BaseOption>)

  /** The selection is empty or is (by identity) one of the options. */
  ghost predicate SelectionIsMember(l: OptionList)
  {
    l.selected.None? || l.selected.value in l.options
  }

  /** The primary constructor copies the given options and selects nothing. */
  function New(xs: seq<BaseOption>): (l: OptionList)
    ensures l.options == xs
    ensures l.selected.None?
    ensures SelectionIsMember(l)
  {
    OptionList(xs, None)
  }

  /** The `SelectedOption` setter: null always clears; a member becomes the
      selection; anything else throws and changes nothing. */
  function SetSelected(l: OptionList, value: Option<BaseOption>): (r: Completion<OptionList>)
    ensures r.Ok? <==> value.None? || value.value in l.options
    ensures r.Ok? ==> r.state.options == l.options && r.state.selected == value
    ensures r.Ok? ==> SelectionIsMember(r.state)
    ensures r.Thrown? ==> r.error == InvalidSelection && r.state == l
  {
    if value.None? || value.value in l.options then Ok(l.(selected := value))
    else Thrown(InvalidSelection, l)
  }

  /** `SelectedOption = null`: the setter's null case, which never throws. */
  function Cleared(l: OptionList): (r: OptionList)
    ensures SetSelected(l, None) == Ok(r)
    ensures r.options == l.options && r.selected.None?
  {
    SetSelected(l, None).state
  }

  /** `SetOptions`: the options are replaced and the old selection is put
      back as it was, with no membership check. */
  function SetOptions(l: OptionList, xs: seq<BaseOption>): (r: OptionList)
    ensures r.options == xs
    ensures r.selected == l.selected
  {
    OptionList(xs, l.selected)
  }

  /** What a `FirstOrDefault` lambda in the option model tests: the option's
      `Id`, or the `SystemId` of a system option. */
  datatype Criterion = IdIs(id: int) | SystemIdIs(systemId: int)

  predicate Matches(o: BaseOption, c: Criterion)
  {
    match c
    case IdIs(id) => o.id == id
    case SystemIdIs(v) => o.System? && o.systemId == v
  }

  /** Position `k` holds the first option, in list order, that matches. */
  ghost predicate IsFirstMatch(xs: seq<BaseOption>, c: Criterion, k: int)
  {
    && 0 <= k < |xs|
    && Matches(xs[k], c)
    && forall j :: 0 <= j < k ==> !Matches(xs[j], c)
  }

  /** Index of the first matching option, if any. */
  function FindFirst(xs: seq<BaseOption>, c: Criterion): (r: Option<nat>)
    ensures r.None? <==> forall i :: 0 <= i < |xs| ==> !Matches(xs[i], c)
    ensures r.Some? ==> IsFirstMatch(xs, c, r.value)
  {
    if |xs| == 0 then None
    else if Matches(xs[0], c) then Some(0)
    else
      match FindFirst(xs[1..], c)
      case None => None
      case Some(k) => Some(k + 1)
  }

  /** LINQ `FirstOrDefault`: the first matching option, or null. */
  function FirstOrDefault(xs: seq<BaseOption>, c: Criterion): (r: Option<BaseOption>)
    ensures r.None? <==> forall i :: 0 <= i < |xs| ==> !Matches(xs[i], c)
    ensures r.Some? ==> r.value in xs && Matches(r.value, c)
    ensures forall k :: IsFirstMatch(xs, c, k) ==> r == Some(xs[k])
  {
    match FindFirst(xs, c)
    case None => None
    case Some(k) => Some(xs[k])
  }

  /** There is only one first match, and `FirstOrDefault` returns it. */
  lemma FirstOrDefaultIsFirst(xs: seq<BaseOption>, c: Criterion, k: int)
    requires IsFirstMatch(xs, c, k)
    ensures FirstOrDefault(xs, c) == Some(xs[k])
  {
  }

  /** `SelectOption(int? id)`: null clears and succeeds; otherwise the first
      option with that `Id` is selected, and when there is none the
      selection is cleared and the call reports failure. */
  function SelectById(l: OptionList, id: Option<int>): (r: (OptionList, bool))
    ensures r.0.options == l.options
    ensures SelectionIsMember(r.0)
    ensures id.None? ==> r.1 && r.0.selected.None?
    ensures id.Some? ==>
              (r.1 <==> exists i :: 0 <= i < |l.options| && l.options[i].id == id.value)
    ensures id.Some? && r.1 ==> r.0.selected.Some? && r.0.selected.value.id == id.value
    ensures !r.1 ==> r.0.selected.None?
    ensures forall k :: id.Some? && IsFirstMatch(l.options, IdIs(id.value), k) ==>
              r.0.selected == Some(l.options[k])
  {
    match id
    case None => (l.(selected := None), true)
    case Some(i) =>
      var found := FirstOrDefault(l.options, IdIs(i));
      assert forall k :: IsFirstMatch(l.options, IdIs(i), k) ==> found == Some(l.options[k]) by {
        forall k | IsFirstMatch(l.options, IdIs(i), k) {
          FirstOrDefaultIsFirst(l.options, IdIs(i), k);
        }
      }
      (l.(selected := found), found.Some?)
  }

  /** Some option's name equals `name` ignoring case. */
  function AnyNamed(xs: seq<BaseOption>, name: string): (r: bool)
    ensures r <==> exists i :: 0 <= i < |xs| && EqualsIgnoreCase(xs[i].name, name)
  {
    if |xs| == 0 then false
    else EqualsIgnoreCase(xs[0].name, name) || AnyNamed(xs[1..], name)
  }

  /** `ContainsOptionWithName`: some option's `Name` equals `name` under
      ordinal case-insensitive comparison. */
  function ContainsOptionWithName(l: OptionList, name: string): (r: bool)
    ensures r <==> exists o :: o in l.options && EqualsIgnoreCase(o.name, name)
  {
    AnyNamed(l.options, name)
  }

  /** `IsSelected(TOption option)`: the option is the selected object. With
      no `Equals` override the comparison is by reference, and a selection
      left dangling by `SetOptions` still counts. */
  function IsSelected(l: OptionList, o: BaseOption): (r: bool)
    ensures l.selected.None? ==> !r
    ensures l.selected == Some(o) ==> r
    ensures r ==> l.selected.value.id == o.id
    ensures r && SelectionIsMember(l) ==> o in l.options
  {
    l.selected == Some(o)
  }

  /** `IsSelected(int id)`: a selection exists and its `Id` is the given id;
      false when nothing is selected. */
  function IsSelectedId(l: OptionList, id: int): (r: bool)
    ensures l.selected.None? ==> !r
    ensures r && SelectionIsMember(l) ==> exists i :: 0 <= i < |l.options| && l.options[i].id == id
  {
    l.selected.Some? && l.selected.value.id == id
  }

  /** How the two queries relate: with nothing selected both are false for
      every argument; the selected object is selected, listed or not; an
      option that is selected has its id selected; and at most one option
      is selected. */
  lemma IsSelectedQueries(l: OptionList, o: BaseOption, p: BaseOption, id: int)
    ensures l.selected.None? ==> !IsSelected(l, o) && !IsSelectedId(l, id)
    ensures l.selected == Some(o) ==> IsSelected(l, o)
    ensures IsSelected(l, o) ==> IsSelectedId(l, o.id)
    ensures IsSelected(l, o) && IsSelected(l, p) ==> o == p
    ensures IsSelectedId(l, id) ==> exists q :: IsSelected(l, q) && q.id == id
  {
  }

  /** Setting a member and reading it back: the setter accepts exactly the
      members and null, and afterwards both `IsSelected` queries agree with
      the new selection and nothing else is selected. */
  lemma SetSelectedRoundTrip(l: OptionList, o: BaseOption, other: BaseOption)
    requires o in l.options
    requires other != o
    ensures SetSelected(l, Some(o)).Ok?
    ensures IsSelected(SetSelected(l, Some(o)).state, o)
    ensures IsSelectedId(SetSelected(l, Some(o)).state, o.id)
    ensures !IsSelected(SetSelected(l, Some(o)).state, other)
  {
  }

  /** `SetOptions` is the only list operation that can leave a selection
      that is not a member: the selection survives as a member exactly when
      it is empty or still in the new options. */
  lemma SetOptionsMembership(l: OptionList, xs: seq<BaseOption>)
    ensures SelectionIsMember(SetOptions(l, xs)) <==>
              l.selected.None? || l.selected.value in xs
  {
  }

  /** `SetOptions` changes neither query: an option selected before is
      still selected afterwards, even when it is no longer listed. */
  lemma SetOptionsKeepsQueries(l: OptionList, xs: seq<BaseOption>, o: BaseOption, id: int)
    ensures IsSelected(SetOptions(l, xs), o) == IsSelected(l, o)
    ensures IsSelectedId(SetOptions(l, xs), id) == IsSelectedId(l, id)
    ensures IsSelected(l, o) && o !in xs ==>
              IsSelected(SetOptions(l, xs), o) && !SelectionIsMember(SetOptions(l, xs))
  {
  }

  /** A concrete dangling selection: select `a`, then replace the options
      with `[b]`; the selection is still `a`. */
  lemma SetOptionsCanDangle()
    ensures var a := NewDynamicOption(1, 1, "a");
            var b := NewDynamicOption(2, 2, "b");
            var l := SetSelected(New([a]), Some(a)).state;
            && SelectionIsMember(l)
            && SetOptions(l, [b]).selected == Some(a)
            && !SelectionIsMember(SetOptions(l, [b]))
  {
  }

  /** No `Equals` override: a separately built twin of the selected option
      is not selected, and the setter rejects it when it is not itself in
      the list. */
  lemma TwinIsNotSelected(l: OptionList, a1: nat, a2: nat, id: int, name: string)
    requires a1 != a2
    requires l.selected == Some(NewDynamicOption(a1, id, name))
    requires NewDynamicOption(a2, id, name) !in l.options
    ensures !IsSelected(l, NewDynamicOption(a2, id, name))
    ensures IsSelectedId(l, id)
    ensures SetSelected(l, Some(NewDynamicOption(a2, id, name))) == Thrown(InvalidSelection, l)
  {
  }
}

=== FILE: dynamic_option_list.dfy ===
/** `DynamicOptionList`: an option list of user-created options that starts
    empty and can be refilled through a public `SetOptions`. The inherited
    setter, `SelectOption(int?)`, `ContainsOptionWithName` and `IsSelected`
    overloads act on `list`.
 */
module DynamicOptionLists {
  import opened Results
  import opened BaseOptions
  import opened BaseOptionLists

  datatype DynamicOptionList = DynamicOptionList(list: OptionList)

  /** The C# element type: every option, and the selection, is a `DynamicOption`. */
  ghost predicate Valid(d: DynamicOptionList)
  {
    && (forall i :: 0 <= i < |d.list.options| ==> d.list.options[i].Dynamic?)
    && (d.list.selected.None? || d.list.selected.value.Dynamic?)
  }

  /** `new DynamicOptionList()`: no options and no selection. */
  function New(): (d: DynamicOptionList)
    ensures d.list.options == []
    ensures d.list.selected.None?
    ensures Valid(d)
  {
    DynamicOptionList(BaseOptionLists.New([]))
  }

  /** The public `SetOptions`: the contents become exactly `xs`, in order,
      duplicates included, and the selection is left as it was. */
  function SetOptions(d: DynamicOptionList, xs: seq<DynamicOption>): (r: DynamicOptionList)
    ensures r.list.options == xs
    ensures r.list.selected == d.list.selected
    ensures Valid(d) ==> Valid(r)
  {
    DynamicOptionList(BaseOptionLists.SetOptions(d.list, xs))
  }

  /** The inherited operations keep the element type. */
  lemma OperationsKeepValid(d: DynamicOptionList, value: Option<BaseOption>, id: Option<int>)
    requires Valid(d)
    ensures Valid(DynamicOptionList(BaseOptionLists.SetSelected(d.list, value).state))
    ensures Valid(DynamicOptionList(BaseOptionLists.SelectById(d.list, id).0))
  {
  }

  /** No uniqueness check: two different options with the same id are
      both accepted, and selecting that id picks the earlier one. */
  lemma DuplicateIdsPickFirst(a: DynamicOption, b: DynamicOption)
    requires a.id == b.id
    requires a != b
    ensures SetOptions(New(), [a, b]).list.options == [a, b]
    ensures BaseOptionLists.SelectById(SetOptions(New(), [a, b]).list, Some(a.id)).0.selected == Some(a)
    ensures !BaseOptionLists.IsSelected(BaseOptionLists.SelectById(SetOptions(New(), [a, b]).list, Some(a.id)).0, b)
  {
  }
}

=== FILE: enums.dfy ===
/** A C# enum type, as far as the option model sees it.

    The declarations themselves (`Gender`, `ProgrammingLanguage`) are not
    part of this model. An enum is its type name and the names of its
    members; member `i` has underlying value `i`, so `Enum.GetValues`
    lists the values `0, 1, ..., |names| - 1` in that order. A value of
    the enum type is any `int`: C# lets a cast produce a value that no
    member declares.
 */
module Enums {

  datatype EnumType = EnumType(typeName: string, names: seq<string>)
  {
    /** The value is one of the declared members. */
    predicate Defined(v: int)
    {
      0 <= v < |names|
    }

    /** `Enum.GetValues` order: the declared values, ascending. */
    function Values(): (vs: seq<int>)
      ensures |vs| == |names|
      ensures forall i :: 0 <= i < |vs| ==> vs[i] == i && Defined(vs[i])
    {
      seq(|names|, i requires 0 <= i < |names| => i)
    }

    /** `value.ToString()` of a declared member is its name. */
    function ToString(v: int): string
      requires Defined(v)
    {
      names[v]
    }
  }
}

=== FILE: mixed_option_list.dfy ===
/** `MixedOptionList<TEnum>`: a system list and a dynamic list presented
    as one collection with one selection.

    The mixed list is itself a `BaseOptionList<BaseOption>`: its base part,
    `dynamic`, holds the dynamic options and the dynamic selection, while
    `system` is the private `SystemOptionList<TEnum>`. `Options` and the
    `SelectedOption` property are redeclared with `new`; the inherited
    `IsSelected(option)` and `IsSelected(int)` still read the base part.
 */
module MixedOptionLists {
  import opened Results
  import opened Names
  import opened Enums
  import opened BaseOptions
  import opened BaseOptionLists
  import opened SystemDefinedOptions
  import SystemOptionLists

  datatype MixedOptionList = MixedOptionList(system: SystemOptionLists.SystemOptionList, dynamic: OptionList)
  {
    function SystemOptions(): seq<BaseOption> { system.list.options }
    function SystemSelected(): Option<BaseOption> { system.list.selected }
  }

  /** At most one side holds a selection. */
  ghost predicate Exclusive(m: MixedOptionList)
  {
    m.SystemSelected().None? || m.dynamic.selected.None?
  }

  /** No id of `xs` is the id of an option in `ys`. */
  ghost predicate IdsDisjoint(xs: seq<BaseOption>, ys: seq<BaseOption>)
  {
    forall i, j :: 0 <= i < |xs| && 0 <= j < |ys| ==> xs[i].id != ys[j].id
  }

  /** The states every public member can reach, the base setter reached
      through a base-type reference included (`RunAnyKeepsConsistent`):
      the system side is a registry list and the base side holds dynamic
      options whose ids avoid the catalog's. The dynamic selection may
      dangle after `SetOptions`. */
  ghost predicate Consistent(m: MixedOptionList)
  {
    && SystemOptionLists.Valid(m.system)
    && (forall i :: 0 <= i < |m.dynamic.options| ==> m.dynamic.options[i].Dynamic?)
    && (m.dynamic.selected.None? || m.dynamic.selected.value.Dynamic?)
    && IdsDisjoint(m.dynamic.options, m.SystemOptions())
  }

  /** The states the mixed list's own members keep (`RunKeepsWf`): a
      consistent state in which at most one side is selected. The base
      setter can leave this set (`BaseSetterBreaksExclusive`). */
  ghost predicate Wf(m: MixedOptionList)
  {
    Consistent(m) && Exclusive(m)
  }

  /** `ForProgrammingLanguages()` and the private constructor: the registry
      list for `e` and an empty base list. */
  function For(e: EnumType): (m: MixedOptionList)
    ensures Wf(m)
    ensures m.system.enumType == e
    ensures m.SystemOptions() == Catalog(e) && m.dynamic.options == []
    ensures m.SystemSelected().None? && m.dynamic.selected.None?
  {
    MixedOptionList(SystemOptionLists.For(e), BaseOptionLists.New([]))
  }

  /** The `Options` property: the system catalog, then the dynamic options. */
  function Options(m: MixedOptionList): (r: seq<BaseOption>)
    ensures |r| == |m.SystemOptions()| + |m.dynamic.options|
    ensures forall o :: o in r <==> o in m.SystemOptions() || o in m.dynamic.options
  {
    m.SystemOptions() + m.dynamic.options
  }

  /** The `SelectedOption` getter: the base (dynamic) selection when there
      is one, otherwise the system list's selection. */
  function Selected(m: MixedOptionList): (r: Option<BaseOption>)
    ensures r.None? <==> m.SystemSelected().None? && m.dynamic.selected.None?
    ensures r.Some? ==> r == m.dynamic.selected || r == m.SystemSelected()
    ensures Exclusive(m) && m.SystemSelected().Some? ==> r == m.SystemSelected()
  {
    if m.dynamic.selected.Some? then m.dynamic.selected else m.SystemSelected()
  }

  /** The view keeps both orders: catalog positions first, dynamic after,
      and an option is listed exactly when one of the sides lists it. */
  lemma OptionsConcatenate(m: MixedOptionList, o: BaseOption)
    ensures |Options(m)| == |m.SystemOptions()| + |m.dynamic.options|
    ensures forall i :: 0 <= i < |m.SystemOptions()| ==> Options(m)[i] == m.SystemOptions()[i]
    ensures forall i :: 0 <= i < |m.dynamic.options| ==>
              Options(m)[|m.SystemOptions()| + i] == m.dynamic.options[i]
    ensures o in Options(m) <==> o in m.SystemOptions() || o in m.dynamic.options
  {
  }

  /** The getter prefers the dynamic side; with at most one side selected
      it is simply whichever side holds a selection. */
  lemma SelectedIsTheSelectedSide(m: MixedOptionList)
    ensures m.dynamic.selected.Some? ==> Selected(m) == m.dynamic.selected
    ensures m.dynamic.selected.None? ==> Selected(m) == m.SystemSelected()
    ensures Exclusive(m) && m.SystemSelected().Some? ==> Selected(m) == m.SystemSelected()
    ensures Selected(m).None? <==> m.SystemSelected().None? && m.dynamic.selected.None?
  {
  }

  /** An id occurs in the merged view exactly when it occurs on one of the sides. */
  lemma IdInOptions(m: MixedOptionList, id: int)
    ensures (exists i :: 0 <= i < |Options(m)| && Options(m)[i].id == id) <==>
              (exists i :: 0 <= i < |m.SystemOptions()| && m.SystemOptions()[i].id == id) ||
              (exists i :: 0 <= i < |m.dynamic.options| && m.dynamic.options[i].id == id)
  {
    var sys, dyn := m.SystemOptions(), m.dynamic.options;
    if i :| 0 <= i < |Options(m)| && Options(m)[i].id == id {
      if i < |sys| {
        assert sys[i].id == id;
      } else {
        assert dyn[i - |sys|].id == id;
      }
    }
    if i :| 0 <= i < |sys| && sys[i].id == id {
      assert Options(m)[i].id == id;
    }
    if i :| 0 <= i < |dyn| && dyn[i].id == id {
      assert Options(m)[|sys| + i].id == id;
    }
  }

  /** Replace the system side's list. */
  function WithSystemList(m: MixedOptionList, l: OptionList): MixedOptionList
  {
    m.(system := m.system.(list := l))
  }

  /** The `SelectedOption` setter. Null clears both sides. A system option
      of this enum is set on the system side, and only when that succeeds
      is the dynamic side cleared. A dynamic option first clears the
      system side and is then set on the dynamic side, so a non-member
      throws after the system side is already cleared. Any other option
      throws with nothing changed. */
  function SetSelected(m: MixedOptionList, value: Option<BaseOption>): (r: Completion<MixedOptionList>)
    ensures r.state.system.enumType == m.system.enumType
    ensures r.state.SystemOptions() == m.SystemOptions() && r.state.dynamic.options == m.dynamic.options
    ensures Options(r.state) == Options(m)
    ensures value.None? ==>
              r.Ok? && r.state.SystemSelected().None? && r.state.dynamic.selected.None?
    ensures value.Some? && value.value.System? && value.value.enumType == m.system.enumType ==>
              && (r.Ok? <==> value.value in m.SystemOptions())
              && (r.Ok? ==> r.state.SystemSelected() == value && r.state.dynamic.selected.None?)
              && (r.Thrown? ==> r.error == InvalidSelection && r.state == m)
    ensures value.Some? && value.value.Dynamic? ==>
              && r.state.SystemSelected().None?
              && (r.Ok? <==> value.value in m.dynamic.options)
              && (r.Ok? ==> r.state.dynamic.selected == value)
              && (r.Thrown? ==> r.error == InvalidSelection && r.state.dynamic == m.dynamic)
    ensures value.Some? && !(value.value.System? && value.value.enumType == m.system.enumType)
                        && !value.value.Dynamic? ==>
              r == Thrown(UnsupportedOptionType, m)
    ensures r.Ok? ==> Selected(r.state) == value
    ensures Exclusive(m) ==> Exclusive(r.state)
    ensures Wf(m) ==> Wf(r.state)
    ensures Consistent(m) ==> Consistent(r.state)
  {
    match value
    case None =>
      Ok(MixedOptionList(m.system.(list := Cleared(m.system.list)), Cleared(m.dynamic)))
    case Some(o) =>
      if o.System? && o.enumType == m.system.enumType then
        match BaseOptionLists.SetSelected(m.system.list, value)
        case Thrown(err, s) => Thrown(err, WithSystemList(m, s))
        case Ok(s) => Ok(MixedOptionList(m.system.(list := s), Cleared(m.dynamic)))
      else if o.Dynamic? then
        var cleared := WithSystemList(m, Cleared(m.system.list));
        match BaseOptionLists.SetSelected(m.dynamic, value)
        case Thrown(err, d) => Thrown(err, cleared.(dynamic := d))
        case Ok(d) => Ok(cleared.(dynamic := d))
      else
        Thrown(UnsupportedOptionType, m)
  }

  /** The base class's `SelectedOption` setter reached through a
      `BaseOptionList<BaseOption>` reference. The mixed list hides the
      property with `new` instead of overriding it, so this call checks
      membership among the dynamic options only and never touches the
      system side. */
  function BaseSetSelected(m: MixedOptionList, value: Option<BaseOption>): (r: Completion<MixedOptionList>)
    ensures r.state.system == m.system
    ensures r.state.dynamic.options == m.dynamic.options
    ensures r.Ok? <==> value.None? || value.value in m.dynamic.options
    ensures r.Ok? ==> r.state.dynamic.selected == value
    ensures r.Thrown? ==> r.error == InvalidSelection && r.state == m
    ensures Consistent(m) ==> Consistent(r.state)
  {
    match BaseOptionLists.SetSelected(m.dynamic, value)
    case Ok(d) => Ok(m.(dynamic := d))
    case Thrown(err, d) => Thrown(err, m.(dynamic := d))
  }

  /** Through the base setter both sides can end up selected: load `x`,
      select enum value 0, then set `x` through the base type. The getter
      shows `x` while `IsSelected(TEnum)` still reports value 0. */
  lemma BaseSetterBreaksExclusive()
    ensures var e := EnumType("Letter", ["A"]);
            var x := NewDynamicOption(1, 1, "x");
            var m1 := SelectOption(SetOptions(For(e), [x]).state, Some(0)).0;
            var m2 := BaseSetSelected(m1, Some(x));
            && Wf(m1)
            && m2.Ok?
            && !Exclusive(m2.state)
            && Selected(m2.state) == Some(x)
            && IsSelectedEnum(m2.state, 0)
  {
  }

  /** Some option of `ys` has the given id. */
  function ContainsId(ys: seq<BaseOption>, id: int): (r: bool)
    ensures r <==> exists j :: 0 <= j < |ys| && ys[j].id == id
  {
    if |ys| == 0 then false else ys[0].id == id || ContainsId(ys[1..], id)
  }

  /** The duplicate-id test of `SetOptions`: does some incoming option share
      its id with some option of `ys`? */
  function AnyIdCollides(xs: seq<BaseOption>, ys: seq<BaseOption>): (r: bool)
    ensures r <==> !IdsDisjoint(xs, ys)
  {
    if |xs| == 0 then false
    else if ContainsId(ys, xs[0].id) then true
    else
      var rest := AnyIdCollides(xs[1..], ys);
      assert IdsDisjoint(xs[1..], ys) ==> IdsDisjoint(xs, ys) by {
        if IdsDisjoint(xs[1..], ys) {
          forall i, j | 0 <= i < |xs| && 0 <= j < |ys| ensures xs[i].id != ys[j].id {
            if i > 0 { assert xs[i] == xs[1..][i - 1]; }
          }
        }
      }
      assert !IdsDisjoint(xs[1..], ys) ==> !IdsDisjoint(xs, ys) by {
        if !IdsDisjoint(xs[1..], ys) {
          var i, j :| 0 <= i < |xs[1..]| && 0 <= j < |ys| && xs[1..][i].id == ys[j].id;
          assert xs[i + 1].id == ys[j].id;
        }
      }
      rest
  }

  /** `SetOptions(IEnumerable<DynamicOption>)`: a batch with an id that the
      system catalog already uses is refused with nothing changed;
      otherwise only the dynamic options are replaced and both selections
      stay as they were. */
  function SetOptions(m: MixedOptionList, xs: seq<DynamicOption>): (r: Completion<MixedOptionList>)
    ensures r.Thrown? <==>
              exists i, j :: 0 <= i < |xs| && 0 <= j < |m.SystemOptions()| &&
                             xs[i].id == m.SystemOptions()[j].id
    ensures r.Thrown? ==> r.error == DuplicateId && r.state == m
    ensures r.Ok? ==> r.state.system == m.system
    ensures r.Ok? ==> r.state.dynamic.options == xs && r.state.dynamic.selected == m.dynamic.selected
    ensures Exclusive(m) ==> Exclusive(r.state)
    ensures Wf(m) ==> Wf(r.state)
    ensures Consistent(m) ==> Consistent(r.state)
  {
    if AnyIdCollides(xs, m.SystemOptions()) then Thrown(DuplicateId, m)
    else Ok(m.(dynamic := BaseOptionLists.SetOptions(m.dynamic, xs)))
  }

  /** `SelectOption(int? id)`: clear the system side, try the id on the
      dynamic side, and only if that fails try it on the system side. */
  function SelectById(m: MixedOptionList, id: Option<int>): (r: (MixedOptionList, bool))
    ensures r.0.system.enumType == m.system.enumType
    ensures r.0.SystemOptions() == m.SystemOptions() && r.0.dynamic.options == m.dynamic.options
    ensures Exclusive(r.0)
    ensures id.None? ==> r.1 && Selected(r.0).None?
    ensures id.Some? ==> (r.1 <==> exists i :: 0 <= i < |Options(m)| && Options(m)[i].id == id.value)
    ensures !r.1 ==> Selected(r.0).None?
    ensures forall k :: id.Some? && IsFirstMatch(m.dynamic.options, IdIs(id.value), k) ==>
              r.0.dynamic.selected == Some(m.dynamic.options[k])
    ensures forall k :: id.Some? && IsFirstMatch(m.SystemOptions(), IdIs(id.value), k) &&
                        FirstOrDefault(m.dynamic.options, IdIs(id.value)).None? ==>
              r.0.SystemSelected() == Some(m.SystemOptions()[k]) && r.0.dynamic.selected.None?
    ensures Wf(m) ==> Wf(r.0)
    ensures Consistent(m) ==> Consistent(r.0)
  {
    var systemCleared := Cleared(m.system.list);
    IdInOptions(m, if id.Some? then id.value else 0);
    var (d, foundDynamic) := BaseOptionLists.SelectById(m.dynamic, id);
    if foundDynamic then
      (MixedOptionList(m.system.(list := systemCleared), d), true)
    else
      var (s, foundSystem) := BaseOptionLists.SelectById(systemCleared, id);
      (MixedOptionList(m.system.(list := s), d), foundSystem)
  }

  /** `SelectOption(TEnum? systemId)`: null clears both sides; any other
      value clears the dynamic side and selects by enum on the system side. */
  function SelectOption(m: MixedOptionList, v: Option<int>): (r: (MixedOptionList, bool))
    ensures r.0.system.enumType == m.system.enumType
    ensures r.0.SystemOptions() == m.SystemOptions() && r.0.dynamic.options == m.dynamic.options
    ensures r.0.dynamic.selected.None?
    ensures Exclusive(r.0)
    ensures v.None? ==> r.1 && r.0.SystemSelected().None?
    ensures v.Some? ==>
              (r.1 <==> exists i :: 0 <= i < |m.SystemOptions()| &&
                                    Matches(m.SystemOptions()[i], SystemIdIs(v.value)))
    ensures !r.1 ==> Selected(r.0).None?
    ensures forall k :: v.Some? && IsFirstMatch(m.SystemOptions(), SystemIdIs(v.value), k) ==>
              Selected(r.0) == Some(m.SystemOptions()[k])
    ensures Wf(m) ==> Wf(r.0)
    ensures Consistent(m) ==> Consistent(r.0)
  {
    if v.None? then (ClearSelection(m), true)
    else
      var d := Cleared(m.dynamic);
      var (s, found) := SystemOptionLists.SelectOption(m.system, v);
      (MixedOptionList(s, d), found)
  }

  /** `ClearSelection()`: both sides lose their selection. */
  function ClearSelection(m: MixedOptionList): (r: MixedOptionList)
    ensures r.system.enumType == m.system.enumType
    ensures r.SystemOptions() == m.SystemOptions() && r.dynamic.options == m.dynamic.options
    ensures Options(r) == Options(m)
    ensures r.SystemSelected().None? && r.dynamic.selected.None?
    ensures Selected(r).None?
    ensures Wf(m) ==> Wf(r)
    ensures Consistent(m) ==> Consistent(r)
  {
    MixedOptionList(m.system.(list := Cleared(m.system.list)), Cleared(m.dynamic))
  }

  /** `ContainsSystemOptionWithName`: a catalog name matches ignoring case. */
  function ContainsSystemOptionWithName(m: MixedOptionList, name: string): (r: bool)
    ensures r <==> exists o :: o in m.SystemOptions() && EqualsIgnoreCase(o.name, name)
  {
    BaseOptionLists.ContainsOptionWithName(m.system.list, name)
  }

  /** `ContainsDynamicOptionWithName`: a dynamic name matches ignoring case. */
  function ContainsDynamicOptionWithName(m: MixedOptionList, name: string): (r: bool)
    ensures r <==> exists o :: o in m.dynamic.options && EqualsIgnoreCase(o.name, name)
  {
    BaseOptionLists.ContainsOptionWithName(m.dynamic, name)
  }

  /** `ContainsOptionWithName`: some option of the merged view matches. */
  function ContainsOptionWithName(m: MixedOptionList, name: string): (r: bool)
    ensures r <==> exists o :: o in Options(m) && EqualsIgnoreCase(o.name, name)
  {
    ContainsSystemOptionWithName(m, name) || ContainsDynamicOptionWithName(m, name)
  }

  /** `IsSelected(TEnum systemId)`: asks the system side only. */
  function IsSelectedEnum(m: MixedOptionList, v: int): (r: bool)
    ensures r <==> m.SystemSelected().Some? && Matches(m.SystemSelected().value, SystemIdIs(v))
  {
    SystemOptionLists.IsSelected(m.system, v)
  }

  /** The inherited `IsSelected(BaseOption option)`: reads the base part. */
  function IsSelected(m: MixedOptionList, o: BaseOption): (r: bool)
    ensures r <==> m.dynamic.selected == Some(o)
  {
    BaseOptionLists.IsSelected(m.dynamic, o)
  }

  /** The inherited `IsSelected(int id)`: reads the base part. */
  function IsSelectedId(m: MixedOptionList, id: int): (r: bool)
    ensures r <==> m.dynamic.selected.Some? && m.dynamic.selected.value.id == id
  {
    BaseOptionLists.IsSelectedId(m.dynamic, id)
  }

  /** On every reachable state, both sides selected or not, the merged
      setter behaves like the base setter on the merged view: it accepts
      exactly the listed options, and the getter then returns what was set. */
  lemma MergedSetterAcceptsExactlyMembers(m: MixedOptionList, o: BaseOption)
    requires Consistent(m)
    ensures SetSelected(m, Some(o)).Ok? <==> o in Options(m)
    ensures SetSelected(m, Some(o)).Ok? ==> Selected(SetSelected(m, Some(o)).state) == Some(o)
  {
  }

  /** On every reachable state, where dynamic ids avoid catalog ids,
      trying the dynamic side first and the system side second selects the
      same option as a plain first-match lookup over the merged view. */
  lemma MergedSelectByIdIsFirstMatch(m: MixedOptionList, id: int, k: int)
    requires Consistent(m)
    requires IsFirstMatch(Options(m), IdIs(id), k)
    ensures SelectById(m, Some(id)).1
    ensures Selected(SelectById(m, Some(id)).0) == Some(Options(m)[k])
  {
    var sys, dyn := m.SystemOptions(), m.dynamic.options;
    OptionsConcatenate(m, Options(m)[k]);
    if k < |sys| {
      assert Options(m)[k] == sys[k];
      assert IsFirstMatch(sys, IdIs(id), k) by {
        forall j | 0 <= j < k ensures !Matches(sys[j], IdIs(id)) {
          assert Options(m)[j] == sys[j];
        }
      }
      assert forall i :: 0 <= i < |dyn| ==> !Matches(dyn[i], IdIs(id));
    } else {
      var kd := k - |sys|;
      assert Options(m)[k] == dyn[kd];
      assert IsFirstMatch(dyn, IdIs(id), kd) by {
        forall j | 0 <= j < kd ensures !Matches(dyn[j], IdIs(id)) {
          assert Options(m)[|sys| + j] == dyn[j];
        }
      }
    }
  }

  /** The inherited `IsSelected` overloads read only the base part: after
      selecting a declared enum value the getter returns its catalog
      option, yet `IsSelected` on that very option, and on its id, is false. */
  lemma InheritedIsSelectedIgnoresSystemSide(m: MixedOptionList, v: int)
    requires Wf(m)
    requires m.system.enumType.Defined(v)
    ensures var m' := SelectOption(m, Some(v)).0;
            && Selected(m') == Some(Catalog(m.system.enumType)[v])
            && IsSelectedEnum(m', v)
            && !IsSelected(m', Catalog(m.system.enumType)[v])
            && !IsSelectedId(m', -v - 1)
  {
  }

  /** Enum round trip on the merged list: a declared value is found, its
      catalog option (`Id == -v - 1`) becomes the selection, the dynamic
      side is cleared and `IsSelected(TEnum)` holds. */
  lemma SelectOptionRoundTrip(m: MixedOptionList, v: int)
    requires Wf(m)
    requires m.system.enumType.Defined(v)
    ensures SelectOption(m, Some(v)).1
    ensures SelectOption(m, Some(v)).0.dynamic.selected.None?
    ensures Selected(SelectOption(m, Some(v)).0).Some?
    ensures Selected(SelectOption(m, Some(v)).0).value.id == -v - 1
    ensures IsSelectedEnum(SelectOption(m, Some(v)).0, v)
  {
    CatalogTotal(m.system.enumType, v);
  }

  /** One call of a public mutator. */
  datatype Call =
    | SetSelectedCall(value: Option<BaseOption>)
    | SetOptionsCall(xs: seq<DynamicOption>)
    | SelectByIdCall(id: Option<int>)
    | SelectOptionCall(v: Option<int>)
    | ClearSelectionCall

  /** The state after a call, whether it returned or threw. */
  function Apply(m: MixedOptionList, c: Call): MixedOptionList
  {
    match c
    case SetSelectedCall(value) => SetSelected(m, value).state
    case SetOptionsCall(xs) => SetOptions(m, xs).state
    case SelectByIdCall(id) => SelectById(m, id).0
    case SelectOptionCall(v) => SelectOption(m, v).0
    case ClearSelectionCall => ClearSelection(m)
  }

  function Run(m: MixedOptionList, calls: seq<Call>): MixedOptionList
    decreases |calls|
  {
    if |calls| == 0 then m else Run(Apply(m, calls[0]), calls[1..])
  }

  /** Whatever the caller does, failures included, a merged list built by
      `For` keeps its catalog, never has both sides selected, and never
      holds a dynamic id that is also a catalog id. */
  lemma {:induction false} RunKeepsWf(m: MixedOptionList, calls: seq<Call>)
    requires Wf(m)
    ensures Wf(Run(m, calls))
    ensures Run(m, calls).system.enumType == m.system.enumType
    ensures Exclusive(Run(m, calls))
    ensures Run(m, calls).SystemOptions() == Catalog(m.system.enumType)
    decreases |calls|
  {
    if |calls| > 0 {
      var m' := Apply(m, calls[0]);
      assert Wf(m') && m'.system.enumType == m.system.enumType;
      RunKeepsWf(m', calls[1..]);
    }
  }

  /** One call of any public member, including the base setter reached
      through a `BaseOptionList<BaseOption>` reference. */
  datatype AnyCall =
    | OwnCall(call: Call)
    | BaseSetSelectedCall(value: Option<BaseOption>)

  function ApplyAny(m: MixedOptionList, c: AnyCall): MixedOptionList
  {
    match c
    case OwnCall(call) => Apply(m, call)
    case BaseSetSelectedCall(value) => BaseSetSelected(m, value).state
  }

  function RunAny(m: MixedOptionList, calls: seq<AnyCall>): MixedOptionList
    decreases |calls|
  {
    if |calls| == 0 then m else RunAny(ApplyAny(m, calls[0]), calls[1..])
  }

  /** Whatever the caller does, the base setter and failures included, a
      merged list built by `For` keeps its catalog and never holds a
      dynamic id that is also a catalog id; only exclusivity can be lost. */
  lemma {:induction false} RunAnyKeepsConsistent(m: MixedOptionList, calls: seq<AnyCall>)
    requires Consistent(m)
    ensures Consistent(RunAny(m, calls))
    ensures RunAny(m, calls).system.enumType == m.system.enumType
    ensures RunAny(m, calls).SystemOptions() == Catalog(m.system.enumType)
    decreases |calls|
  {
    if |calls| > 0 {
      var m' := ApplyAny(m, calls[0]);
      assert Consistent(m') && m'.system.enumType == m.system.enumType;
      RunAnyKeepsConsistent(m', calls[1..]);
    }
  }
}

=== FILE: names.dfy ===
/** Name comparison with `StringComparison.OrdinalIgnoreCase`.

    Ordinal case-insensitive comparison maps each character to upper case
    and then compares code units. The model folds the ASCII letters only.
 */
module Names {

  /** Upper-case image of one character (ASCII letters only). */
  function FoldChar(c: char): char
  {
    if 'a' <= c <= 'z' then (c as int - 32) as char else c
  }

  function Fold(s: string): (r: string)
    ensures |r| == |s|
    ensures forall i :: 0 <= i < |s| ==> r[i] == FoldChar(s[i])
  {
    seq(|s|, i requires 0 <= i < |s| => FoldChar(s[i]))
  }

  /** Ordinal case-insensitive equality of two names. */
  predicate EqualsIgnoreCase(a: string, b: string)
  {
    Fold(a) == Fold(b)
  }

  /** Two names are equal ignoring case exactly when they have the same
      length and agree character by character after folding. */
  lemma EqualsIgnoreCaseCharwise(a: string, b: string)
    ensures EqualsIgnoreCase(a, b) <==>
              |a| == |b| && forall i :: 0 <= i < |a| ==> FoldChar(a[i]) == FoldChar(b[i])
  {
  }

  /** The comparison ignores case: "abc" and "ABC" are equal, "abc" and "abd" are not. */
  lemma IgnoresCaseExample()
    ensures EqualsIgnoreCase("abc", "ABC")
    ensures !EqualsIgnoreCase("abc", "abd")
  {
    assert Fold("abc")[2] != Fold("abd")[2];
    assert Fold("abc") == "ABC" == Fold("ABC");
  }
}

=== FILE: results.dfy ===
/** Nullable values and the outcome of an operation that may throw.

    `Option<T>` stands for a C# nullable reference (`TOption?`, `int?`,
    `TEnum?`). `Completion<S>` stands for a call that either returns normally
    with a new state or throws an `ArgumentException`; in both cases the
    state the object is left in is carried along, because some setters
    have already changed part of the state when they throw.
 */
module Results {

  datatype Option<+T> = None | Some(value: T)

  /** The three `ArgumentException`s the option model can throw. */
  datatype Error =
    | InvalidSelection       // the option is not in the list
    | UnsupportedOptionType  // the merged list does not know the option's runtime type
    | DuplicateId            // a dynamic option reuses a system-catalog id

  datatype Completion<+S> = Ok(state: S) | Thrown(error: Error, state: S)
}

=== FILE: scenarios.dfy ===
/** Worked examples on a two-member enum `{A, B}` with catalog ids -1 and -2. */
module Scenarios {
  import opened Results
  import opened Enums
  import opened BaseOptions
  import BaseOptionLists
  import opened SystemDefinedOptions
  import opened MixedOptionLists

  function Letters(): EnumType { EnumType("Letter", ["A", "B"]) }

  /** Load dynamic options 1 "x" and 2 "y", pick id 2, then pick enum A. */
  lemma LoadSelectByIdThenByEnum()
    ensures Catalog(Letters())[0].id == -1 && Catalog(Letters())[1].id == -2
    ensures var x, y := NewDynamicOption(10, 1, "x"), NewDynamicOption(11, 2, "y");
            var loaded := SetOptions(For(Letters()), [x, y]);
            && loaded.Ok?
            && SelectById(loaded.state, Some(2)).1
            && Selected(SelectById(loaded.state, Some(2)).0) == Some(y)
            && ToString(y) == "y"
            && var (m, found) := SelectOption(SelectById(loaded.state, Some(2)).0, Some(0));
               && found
               && m.dynamic.selected.None?
               && IsSelectedEnum(m, 0)
               && Selected(m).Some? && ToString(Selected(m).value) == "A"
  {
    var x, y := NewDynamicOption(10, 1, "x"), NewDynamicOption(11, 2, "y");
    var loaded := SetOptions(For(Letters()), [x, y]);
    assert loaded.Ok?;
    assert BaseOptionLists.IsFirstMatch(loaded.state.dynamic.options, BaseOptionLists.IdIs(2), 1);
    var m1 := SelectById(loaded.state, Some(2)).0;
    assert Wf(m1);
    CatalogTotal(Letters(), 0);
    assert BaseOptionLists.IsFirstMatch(m1.SystemOptions(), BaseOptionLists.SystemIdIs(0), 0);
  }

  /** A dynamic option with id -1 collides with enum member A and the load
      is refused with nothing changed. */
  lemma CollidingLoadRefused()
    ensures var m := For(Letters());
            SetOptions(m, [NewDynamicOption(12, -1, "z")]) == Thrown(DuplicateId, m)
  {
  }

  /** An id nothing carries is not found and leaves nothing selected. */
  lemma UnknownIdClears()
    ensures var x, y := NewDynamicOption(10, 1, "x"), NewDynamicOption(11, 2, "y");
            var loaded := SetOptions(For(Letters()), [x, y]).state;
            && !SelectById(loaded, Some(999)).1
            && Selected(SelectById(loaded, Some(999)).0).None?
  {
  }
}

=== FILE: system_defined_options.dfy ===
/** `SystemDefinedOptions`: the registry that turns every value of an enum
    into a canonical `SystemOption`.

    The source keeps one catalog per enum in a `static readonly` field,
    built once. Here the catalog is a function of the enum type alone, and
    each catalog option is the object `Registry(e, i)`: every list built
    from the registry for `e` holds the very same option objects.
 */
module SystemDefinedOptions {
  import opened Enums
  import opened BaseOptions
  import opened BaseOptionLists

  /** `DefaultConvertEnumToSystemOption`. */
  function ConvertEnumToSystemOption(e: EnumType, v: int): (o: SystemOption)
    requires e.Defined(v)
    ensures o.id <= -1
    ensures -o.id - 1 == v == o.systemId
    ensures ToString(o) == e.ToString(v)
  {
    System(Registry(e, v), -v - 1, e.ToString(v), e, v)
  }

  /** `CreateReadOnlyCollection<TEnum>()`: one option per value of
      `Enum.GetValues`, in that order, with `Id = -value - 1`,
      `SystemId = value` and `Name = value.ToString()`. */
  function Catalog(e: EnumType): (c: seq<SystemOption>)
    ensures |c| == |e.Values()|
    ensures forall i :: 0 <= i < |c| ==>
              && c[i].systemId == e.Values()[i]
              && c[i].id == -c[i].systemId - 1
              && c[i].name == e.ToString(c[i].systemId)
              && c[i].enumType == e
              && c[i].ref == Registry(e, i)
  {
    seq(|e.names|, i requires 0 <= i < |e.names| => ConvertEnumToSystemOption(e, i))
  }

  /** Distinct enum values get distinct options and distinct ids. */
  lemma CatalogIdsDistinct(e: EnumType, i: int, j: int)
    requires 0 <= i < |Catalog(e)| && 0 <= j < |Catalog(e)|
    requires i != j
    ensures Catalog(e)[i].id != Catalog(e)[j].id
    ensures Catalog(e)[i] != Catalog(e)[j]
  {
  }

  /** Value and id determine each other over the catalog: an id occurs in
      the catalog exactly when it is `-v - 1` for a declared value `v`, and
      the option carrying it is the one for `v`. */
  lemma CatalogIdBijection(e: EnumType, id: int)
    ensures (exists i :: 0 <= i < |Catalog(e)| && Catalog(e)[i].id == id) <==>
              e.Defined(-id - 1)
    ensures forall i :: 0 <= i < |Catalog(e)| && Catalog(e)[i].id == id ==>
              Catalog(e)[i].systemId == -id - 1
  {
    var c := Catalog(e);
    if e.Defined(-id - 1) {
      assert c[-id - 1].id == id;
    }
  }

  /** Every catalog id is at most -1, so no catalog option carries a
      non-negative id, and a lookup by such an id finds nothing. */
  lemma CatalogIdsNegative(e: EnumType, id: int)
    requires id >= 0
    ensures forall i :: 0 <= i < |Catalog(e)| ==> Catalog(e)[i].id <= -1
    ensures FirstOrDefault(Catalog(e), IdIs(id)).None?
  {
  }

  /** The catalog is total over the declared values: each value is the
      `SystemId` of exactly one option, the one at its own position, and
      an undeclared value is the `SystemId` of none. */
  lemma CatalogTotal(e: EnumType, v: int)
    ensures e.Defined(v) ==> IsFirstMatch(Catalog(e), SystemIdIs(v), v)
    ensures forall i :: 0 <= i < |Catalog(e)| && Matches(Catalog(e)[i], SystemIdIs(v)) ==> i == v
  {
  }
}

=== FILE: system_option_list.dfy ===
/** `SystemOptionList<TEnum>`: an option list that holds exactly the
    registry's catalog for one enum.

    The constructor is private and the inherited `SetOptions` is
    protected, so the only lists that exist are built by `For` and keep
    their catalog for ever. The inherited setter, `SelectOption(int?)`,
    `ContainsOptionWithName` and `IsSelected` overloads act on `list`.
 */
module SystemOptionLists {
  import opened Results
  import opened Enums
  import opened BaseOptions
  import opened BaseOptionLists
  import opened SystemDefinedOptions

  datatype SystemOptionList = SystemOptionList(enumType: EnumType, list: OptionList)

  /** Holds the registry catalog of its enum and a member (or no) selection. */
  ghost predicate Valid(s: SystemOptionList)
  {
    && s.list.options == Catalog(s.enumType)
    && SelectionIsMember(s.list)
  }

  /** `ForGender()` / `ForProgrammingLanguages()`: a list over the registry
      catalog of `e`, with nothing selected. */
  function For(e: EnumType): (s: SystemOptionList)
    ensures Valid(s)
    ensures s.enumType == e
    ensures s.list.selected.None?
  {
    SystemOptionList(e, BaseOptionLists.New(Catalog(e)))
  }

  /** `SelectOption(TEnum? systemId)`: null clears and succeeds; otherwise
      the first option whose `SystemId` equals the value is passed to the
      checked setter, and the call reports whether one was found. */
  function SelectOption(s: SystemOptionList, v: Option<int>): (r: (SystemOptionList, bool))
    ensures r.0.enumType == s.enumType && r.0.list.options == s.list.options
    ensures SelectionIsMember(r.0.list)
    ensures v.None? ==> r.1 && r.0.list.selected.None?
    ensures v.Some? ==>
              (r.1 <==> exists i :: 0 <= i < |s.list.options| &&
                                    Matches(s.list.options[i], SystemIdIs(v.value)))
    ensures !r.1 ==> r.0.list.selected.None?
    ensures forall k :: v.Some? && IsFirstMatch(s.list.options, SystemIdIs(v.value), k) ==>
              r.0.list.selected == Some(s.list.options[k])
    ensures v.Some? ==>
              BaseOptionLists.SetSelected(s.list, FirstOrDefault(s.list.options, SystemIdIs(v.value))).Ok?
  {
    var found := if v.None? then None else FirstOrDefault(s.list.options, SystemIdIs(v.value));
    match BaseOptionLists.SetSelected(s.list, found)
    case Ok(l) =>
      assert forall k :: v.Some? && IsFirstMatch(s.list.options, SystemIdIs(v.value), k) ==>
               found == Some(s.list.options[k]) by {
        forall k | v.Some? && IsFirstMatch(s.list.options, SystemIdIs(v.value), k) {
          FirstOrDefaultIsFirst(s.list.options, SystemIdIs(v.value), k);
        }
      }
      (s.(list := l), v.None? || found.Some?)
    case Thrown(_, _) =>
      // the option found is always a member, so the setter cannot throw
      assert false; (s, false)
  }

  /** `IsSelected(TEnum systemId)`: a selection exists and its `SystemId`
      is the value. */
  function IsSelected(s: SystemOptionList, v: int): (r: bool)
    ensures r <==> s.list.selected.Some? && Matches(s.list.selected.value, SystemIdIs(v))
  {
    s.list.selected.Some? && s.list.selected.value.System? && s.list.selected.value.systemId == v
  }

  /** Every operation of a system list keeps it `Valid`: its contents never
      change, whatever it is asked to do. */
  lemma OperationsKeepCatalog(s: SystemOptionList, value: Option<BaseOption>, id: Option<int>, v: Option<int>)
    requires Valid(s)
    ensures Valid(SystemOptionList(s.enumType, BaseOptionLists.SetSelected(s.list, value).state))
    ensures Valid(SystemOptionList(s.enumType, BaseOptionLists.SelectById(s.list, id).0))
    ensures Valid(SelectOption(s, v).0)
  {
  }

  /** Enum round trip: selecting a declared value succeeds, selects the
      catalog option for it (`Id == -v - 1`, `Name` its enum name) and
      `IsSelected` then holds of that value and of no other. */
  lemma SelectOptionRoundTrip(s: SystemOptionList, v: int, w: int)
    requires Valid(s)
    requires s.enumType.Defined(v)
    requires w != v
    ensures SelectOption(s, Some(v)).1
    ensures SelectOption(s, Some(v)).0.list.selected == Some(Catalog(s.enumType)[v])
    ensures SelectOption(s, Some(v)).0.list.selected.value.id == -v - 1
    ensures ToString(SelectOption(s, Some(v)).0.list.selected.value) == s.enumType.ToString(v)
    ensures IsSelected(SelectOption(s, Some(v)).0, v)
    ensures !IsSelected(SelectOption(s, Some(v)).0, w)
  {
  }

  /** A value no member declares (a cast such as `(Gender)42`) is not
      found: the call reports failure and leaves nothing selected. */
  lemma UndeclaredValueClears(s: SystemOptionList, v: int)
    requires Valid(s)
    requires !s.enumType.Defined(v)
    ensures !SelectOption(s, Some(v)).1
    ensures SelectOption(s, Some(v)).0.list.selected.None?
  {
  }

  /** Catalogs are built once and shared: an option selected in one list
      for `e` is accepted by the setter of every other list for `e`. */
  lemma CatalogObjectsShared(s1: SystemOptionList, s2: SystemOptionList)
    requires Valid(s1) && Valid(s2)
    requires s1.enumType == s2.enumType
    ensures BaseOptionLists.SetSelected(s2.list, s1.list.selected).Ok?
    ensures s1.list.selected.Some? ==>
              IsSelected(s2, s1.list.selected.value.systemId) ==
              BaseOptionLists.IsSelected(s2.list, s1.list.selected.value)
  {
  }
}
